=== FILE: README.md ===
# CXR Database browser: filter, selection and history model

This project models the part of the CXR Database page (`main.py`) that
works on plain data rather than on the page itself. The page is a
Streamlit browser over the NIH chest X-ray sample. Each script run does
the following:

- It decodes the filter map from the address: the optional keys `file`,
  `finding` and `view_position`.
- The filter form updates that map: a view-position selectbox, one
  checkbox per finding tag, and a "Random CXR" button that drops the
  pinned record.
- It filters the record table. The view position must match unless it is
  absent or "Any". When the `finding` key is present, at least one of the
  row's finding tags must be in it; without the key, findings are not
  tested.
- It stops when no row matches. Otherwise it shows the pinned record,
  looked up in the full table. With no pin, it draws a random row of the
  filtered table and pins it.
- It moves the shown image id to the front of the session's browsing
  history.

The table is a `seq<Record>` of already-converted rows. The two cell
converters are modelled as functions: the finding-labels split on `'|'` and
the age parse that drops the unit letter. The random draw is a `draw: nat`
parameter constrained to `[0, len - 1]` of the filtered table. The session
state is passed in and returned explicitly: the history list and the
values held by the form's widgets.

Modules:

| module | file | what |
|---|---|---|
| `Wrappers` | wrappers.dfy | `Option`, `Result` |
| `Seqs` | seqs.dfy | no-repeat, counting, subsequence, first index, first-appearance de-duplication |
| `Records` | records.dfy | `Record`, `Split`/`Join`, `AgeParse`, `LoadTable`, finding vocabulary |
| `Query` | query.dfy | `Filters`, `Decode` (`query_to_filters`), `Encode` (`filters_to_query`) |
| `FilterEngine` | filter_engine.dfy | `applyFilter` |
| `FilterForm` | filter_form.dfy | selectbox index, checkbox rebuild of `finding`, "Random CXR" |
| `Selection`, `SelectionExample` | selection.dfy | empty check, random draw, pinned lookup; a worked three-row table |
| `History` | history.dfy | move-to-front history |
| `Session` | session.dfy | one whole run, and its refresh fixpoint |

## Model

| member | source | states |
|---|---|---|
| Records.Split | main.py:126 | `x.split('|')` gives one more piece than there are separators, and no piece contains a separator |
| Records.JoinSplit | main.py:126 | splitting loses nothing: joining the pieces with `'|'` restores the cell |
| Records.SplitJoin | main.py:126 | a non-empty list of separator-free labels is recovered by splitting its join |
| Records.AgeParse | main.py:127 | the cell converts exactly when, with its last character dropped, it is a non-empty run of digits with an optional sign; a cell shorter than two characters fails; every failure names the row and cell |
| Records.AgeParseDigits | main.py:127 | digits followed by any unit letter ("058Y") parse to the digits' value; the unit is ignored |
| Records.AgeRoundTrip | main.py:127 | an age written out with a unit letter parses back to that age |
| Records.LoadRow | main.py:126-136 | a converted row keeps id, follow-up, patient id, gender and view position; its findings are non-empty, contain no separator and join back to the raw cell; the row fails exactly when its age cell fails |
| Records.LoadTable | main.py:129-137 | a loaded table has one converted row per raw row in file order; loading fails exactly when some row's age fails |
| Seqs.Dedup | main.py:175 | `pd.unique`: no repeats, and the same values as the input |
| Seqs.DedupFirstAppearance | main.py:175 | `pd.unique` keeps order of first appearance |
| Records.VocabularyExact | main.py:175 | the checkbox vocabulary lists each tag used by some row exactly once, nothing else, in order of first use |
| Query.Decode | main.py:94-103 | each key is present exactly when its parameter is; `file` and `view_position` take the first value, `finding` the whole list |
| Query.Encode | main.py:106-114 | exactly the present keys are emitted, and only known keys |
| Query.DecodeEncode | main.py:94-114 | decoding the encoded parameters gives the same filter state back |
| Query.EncodeDecode | main.py:94-114 | re-encoding the decoded parameters gives back their known part exactly when `file` and `view_position` hold one value each |
| Query.DecodeIgnoresUnknown | main.py:94-103 | parameters other than the three keys do not change the decoded state |
| FilterEngine.KeepSound | main.py:203-208 | each mask selection keeps only rows of its input that pass |
| FilterEngine.KeepComplete | main.py:203-208 | each mask selection keeps every row of its input that passes |
| FilterEngine.ApplyFilter | main.py:196-210 | soundness and completeness: every returned row is a table row satisfying both active predicates, and every such row is returned |
| FilterEngine.ApplyFilterAppend | main.py:196-210 | the filter distributes over concatenation of tables |
| FilterEngine.ApplyFilterSingle | main.py:196-210 | one row is kept exactly when it matches |
| FilterEngine.ApplyFilterCons | main.py:196-210 | the filtered table is the first row if it matches, followed by the filtered rest |
| FilterEngine.ApplyFilterInOrder | main.py:201-210 | the result is a subsequence of the table: original order kept |
| FilterEngine.ApplyFilterCount | main.py:201-210 | each row occurs in the result as often as in the table if it matches, otherwise not at all |
| FilterEngine.ApplyFilterInactive | main.py:201-206 | with no `finding` key and view position absent or "Any", the table comes back unchanged |
| FilterEngine.ApplyFilterIgnoresPin | main.py:196-210 | the pinned `file` plays no part in filtering |
| SelectionExample.ExampleView | main.py:202-204 | view "PA" keeps the two PA rows of a three-row table, in order |
| SelectionExample.ExampleFinding | main.py:206-208 | finding "Nodule" keeps only the row tagged Nodule |
| SelectionExample.ExampleNoMatches | main.py:202-217 | view "AP" with finding "Nodule" matches nothing and the run stops |
| SelectionExample.ExamplePin | main.py:215-226 | a pin on a record failing the "PA" filter still shows that record |
| FilterForm.SelectIndex | main.py:169-170 | the selectbox starts at 0 for absent or "Any", at 1 for "PA", and at 2 otherwise |
| FilterForm.ChooseView | main.py:169-170 | after the selectbox the view position is one of "Any", "PA", "AP", the held choice if there is one; nothing else changes |
| FilterForm.DefaultViewChoice | main.py:169-170 | left at its default, the selectbox turns absent into "Any", keeps a listed value, and turns any other value into "AP" |
| FilterForm.Rebuild | main.py:173-185 | `finding` is absent exactly when no box is checked; otherwise it is a non-empty list without repeats, holding exactly the checked tags |
| FilterForm.CheckedTagsMembership | main.py:177-185 | the reference list holds exactly the tags of checked boxes |
| FilterForm.RebuildIsCheckedTags | main.py:173-185 | over the vocabulary the rebuilt key is the checked tags in vocabulary order, or absent when none is checked |
| FilterForm.SharedFindingsKept | main.py:173-185 | with the corrected defaults, a fresh session keeps exactly the address's findings that are in the vocabulary |
| FilterForm.AsWrittenIgnoresAddress | main.py:173-180 | as written, every box without a held value starts unchecked whatever the address says |
| FilterForm.SharedFindingDroppedAsWritten | main.py:173-180 | `?finding=Effusion` in a fresh session: as written the filter is dropped; corrected it is kept |
| FilterForm.ClearPin | main.py:189-191 | "Random CXR" removes `file` and leaves `finding` and `view_position` as they were |
| Selection.Lookup | main.py:226 | a found row is in the table with the requested id; nothing is found exactly when no row has that id |
| Selection.LookupUnique | main.py:226 | with unique ids, looking up a row's id returns that row |
| Selection.Resolve | main.py:213-226 | stops with "no matches" exactly when the filtered table is empty. A drawn record is the filtered row at the draw, matches, and becomes the pin. A pinned record comes from the full table under the unchanged state. A missing pin is reported with its id |
| Selection.RandomDrawMatches | main.py:220-224 | without a pin, a non-empty filtered table yields a record of it that matches, and the state pins its id |
| Selection.PinBypassesFilter | main.py:225-226 | a pinned record of the full table is shown even when it fails the filters, provided some row matches |
| Selection.MissingPinFails | main.py:225-226 | a pin naming no row is an error, not a fresh draw |
| Selection.ClearedPinDraws | main.py:189-224 | after "Random CXR" the next selection is a draw from the same filtered rows |
| History.RemoveFirstFacts | main.py:228-229 | `list.remove` drops one occurrence: length and that count go down by one, other counts and the order of other entries are unchanged, no repeats are introduced |
| History.InsertFrontFacts | main.py:229-230 | `insert(0, id)` adds one occurrence of the id, leaves other counts and the order of other entries alone, and keeps a list without repeats so when the id was absent |
| History.MoveToFront | main.py:228-230 | the id ends up at index 0; length is unchanged if it was present, else one more; its count becomes max(1, old); other entries keep counts and relative order; a list without repeats stays so, with the id once |
| History.MoveToFrontAtFront | main.py:228-230 | re-showing the record already at the front leaves the history unchanged |
| Session.FormFilters | main.py:167-191 | after the form the view position is the selectbox's choice; `finding` is absent exactly when no box is checked and otherwise holds exactly the checked tags, once each; the pin is dropped on submit and kept from the address otherwise |
| Session.FormAfter | main.py:169-180 | after a run the selectbox holds the index of the chosen view, and each checkbox holds the value it returned in this run, one per vocabulary tag |
| Session.Run | main.py:117-230 | a shown record is in the table; the history is the old one with its id moved to the front; it is pinned by the state and named by the address. The filters are the form's filters, with the pin set to the shown record, and the widgets end up as the form leaves them. Without a submit, an address pin is the record shown; after a submit or without a pin, the shown record matches the filters. "No matches" happens exactly when the filtered table is empty; a missing record is reported exactly when rows match, the run was not submitted and the address pins an id no row has, and it names that id. After a submit, or after a fresh draw, the address is the encoding of the whole new state; otherwise it is left as it was. Without a shown record the history is unchanged, and it never gains repeats |
| Session.RefreshIsFixpoint | main.py:117-230 | re-running with the address, history and widget values a run left behind, without submitting, reproduces that run exactly |
| Session.SubmitShowsMatchingRecord | main.py:187-224 | after "Random CXR" with some matching row, the shown record is the drawn matching row and the address carries the new state |

## Findings

| source | as written | input that shows it | evidently intended | confidence | as-written member | corrected member |
|---|---|---|---|---|---|---|
| main.py:173-180 | `filters['finding']` is deleted before the checkbox defaults are computed from it. Each default therefore asks whether the tag is in the list being rebuilt, which it never is, so every default is False | A fresh session opens `?finding=Effusion`. No checkbox holds a value, "Effusion" starts unchecked, and the finding filter is silently dropped. The next random draw's address drops it too | a checkbox starts checked when its tag is in the address's `finding` list | medium, not executed | FilterForm.AsWrittenIgnoresAddress | FilterForm.SharedFindingsKept |

The as-written loop is `FilterForm.RebuildAsWritten`, and
`FilterForm.SharedFindingDroppedAsWritten` gives the concrete input.
`Session.Run` uses the corrected defaults (`FilterForm.CheckboxValues`).
Widgets that already hold a value behave the same either way.

Behaviour the model keeps as the code has it, though a reader might expect
otherwise:

- A missing `view_position` decodes as absent, not as "Any". The selectbox
  then sets it to "Any".
- A `finding` key holding an empty list matches no row; it is not treated
  as "no finding constraint". The form never produces an empty list.
- The empty-result check runs before the pin is looked up. A pinned record
  whose filters match nothing therefore stops the run with "no matches".
- A pin missing from the table raises `KeyError` in the source. Here it is
  `Failure(RecordNotFound(id))`, and the history is left unchanged.
- The history is unbounded, as in the source.
- Any view position other than "Any" and "PA" selects the "AP" option.

## Left out

- Streamlit rendering is not modelled. This covers the sidebar links
  (main.py:153-160), the columns, the image, the expanders, and the
  double-render hack with `st_js` and `time.sleep` (main.py:232-292). It is
  presentation only.
- The hosting-site check and force-load button (main.py:42-55) are not
  modelled: they are environment detection and UI.
- The Kaggle download (main.py:57-91) is not modelled: it is external
  processes and I/O.
- `pd.read_csv` and the one-hour `st.cache_data` cache (main.py:120-137) are
  not modelled. The table is taken as rows already split into cells, and
  only the two converters are modelled.
- The exception handling around loading (main.py:140-146) is I/O
  plumbing; `LoadTable` returns the conversion error instead.
- `random.randint` (main.py:221) is replaced by the `draw` parameter.
- The address itself is not modelled: parameters are a map from key to
  value list. URL encoding is therefore left out. So is the way an empty
  value list vanishes from an address.
- Records.AgeParse: Python's `int()` also accepts surrounding whitespace,
  digit-group underscores and non-ASCII decimal digits. The model rejects
  all three, because the age cells are plain ASCII digits and a unit letter.
- Selection.Lookup: duplicate image ids are out of scope. On a repeated id
  `record_df.loc[id]` returns every such row; the model takes the first.
  The fixpoint lemma assumes unique ids.
- Session.Run: the checkbox defaults are the corrected ones (see Findings),
  so a fresh session opened on an address with `finding` keeps that filter,
  where the code as written drops it.
- Session.FormFilters: the checkbox defaults are the corrected ones, so on a
  fresh session with `finding` in the address the rebuilt `finding` key
  keeps the address's tags, where the code as written produces none.
- Session.FormAfter: the checkbox defaults are the corrected ones, so on a
  fresh session each box holds whether its tag is in the address's
  `finding` list, where the code as written holds False.
- `expander_state` and `forceload` session flags are UI state and not modelled.

=== FILE: filter_engine.dfy ===
/**
 `applyFilter` (main.py:196-210): the view-position pass, then the
 finding pass, each keeping the rows that pass in their table order.
 */
module FilterEngine {
  import opened Wrappers
  import opened Seqs
  import opened Records
  import opened Query

  /** The view-position value that switches the first pass off. */
  const AnyView: string := "Any"

  /** The two passes of the filter, in the order they run. */
  datatype Stage = ViewStage | FindingStage

  /** The row's view position is the selected one, unless none or "Any" is selected. */
  predicate ViewOk(r: Record, f: Filters) {
    match f.viewPosition
    case None => true
    case Some(v) => v == AnyView || r.viewPosition == v
  }

  /** Match-any: some tag of the row is among the selected findings, if any are selected. */
  predicate FindingOk(r: Record, f: Filters) {
    match f.finding
    case None => true
    case Some(sel) => exists t :: t in r.findings && t in sel
  }

  predicate Passes(r: Record, f: Filters, stage: Stage) {
    match stage
    case ViewStage => ViewOk(r, f)
    case FindingStage => FindingOk(r, f)
  }

  /** Both active predicates hold. */
  predicate Matches(r: Record, f: Filters) {
    ViewOk(r, f) && FindingOk(r, f)
  }

  /** One boolean-mask selection `df[mask]`: the passing rows, in order. */
  function Keep(rows: seq<Record>, f: Filters, stage: Stage): (kept: seq<Record>)
    ensures |kept| <= |rows|
    decreases |rows|
  {
    if |rows| == 0 then []
    else (if Passes(rows[0], f, stage) then [rows[0]] else []) + Keep(rows[1..], f, stage)
  }

  /** The rows of the table that satisfy every active predicate. */
  function ApplyFilter(table: seq<Record>, f: Filters): (rows: seq<Record>)
    ensures |rows| <= |table|
    ensures forall k :: 0 <= k < |rows| ==> rows[k] in table && Matches(rows[k], f)
    ensures forall r :: r in table && Matches(r, f) ==> r in rows
  {
    var viewed := Keep(table, f, ViewStage);
    KeepSound(table, f, ViewStage);
    KeepSound(viewed, f, FindingStage);
    KeepComplete(table, f, ViewStage);
    KeepComplete(viewed, f, FindingStage);
    Keep(viewed, f, FindingStage)
  }

  /** Only passing rows of the input survive a pass. */
  lemma {:induction false} KeepSound(rows: seq<Record>, f: Filters, stage: Stage)
    ensures forall k :: 0 <= k < |Keep(rows, f, stage)| ==>
      Keep(rows, f, stage)[k] in rows && Passes(Keep(rows, f, stage)[k], f, stage)
    decreases |rows|
  {
    if |rows| > 0 {
      KeepSound(rows[1..], f, stage);
      var kept := Keep(rows, f, stage);
      var rest := Keep(rows[1..], f, stage);
      var head := if Passes(rows[0], f, stage) then [rows[0]] else [];
      assert kept == head + rest;
      forall k | 0 <= k < |kept|
        ensures kept[k] in rows && Passes(kept[k], f, stage)
      {
        if k >= |head| {
          assert kept[k] == rest[k - |head|];
          assert rest[k - |head|] in rows[1..];
        }
      }
    }
  }

  /** Every passing row survives its pass. */
  lemma {:induction false} KeepComplete(rows: seq<Record>, f: Filters, stage: Stage)
    ensures forall r :: r in rows && Passes(r, f, stage) ==> r in Keep(rows, f, stage)
    decreases |rows|
  {
    if |rows| > 0 {
      KeepComplete(rows[1..], f, stage);
      forall r | r in rows && Passes(r, f, stage)
        ensures r in Keep(rows, f, stage)
      {
        if r != rows[0] {
          assert r in rows[1..];
        }
      }
    }
  }

  lemma {:induction false} KeepAppend(a: seq<Record>, b: seq<Record>, f: Filters, stage: Stage)
    ensures Keep(a + b, f, stage) == Keep(a, f, stage) + Keep(b, f, stage)
    decreases |a|
  {
    if |a| == 0 {
      assert a + b == b;
    } else {
      var head := if Passes(a[0], f, stage) then [a[0]] else [];
      KeepAppend(a[1..], b, f, stage);
      calc {
        Keep(a + b, f, stage);
        { assert (a + b)[0] == a[0]; }
        head + Keep((a + b)[1..], f, stage);
        { assert (a + b)[1..] == a[1..] + b; }
        head + (Keep(a[1..], f, stage) + Keep(b, f, stage));
        (head + Keep(a[1..], f, stage)) + Keep(b, f, stage);
      }
    }
  }

  /** The filter works row by row: it distributes over concatenation. */
  lemma ApplyFilterAppend(a: seq<Record>, b: seq<Record>, f: Filters)
    ensures ApplyFilter(a + b, f) == ApplyFilter(a, f) + ApplyFilter(b, f)
  {
    KeepAppend(a, b, f, ViewStage);
    KeepAppend(Keep(a, f, ViewStage), Keep(b, f, ViewStage), f, FindingStage);
  }

  /** A single row is kept exactly when it matches. */
  lemma ApplyFilterSingle(r: Record, f: Filters)
    ensures ApplyFilter([r], f) == if Matches(r, f) then [r] else []
  {
  }

  lemma ApplyFilterCons(r: Record, t: seq<Record>, f: Filters)
    ensures ApplyFilter([r] + t, f) == (if Matches(r, f) then [r] else []) + ApplyFilter(t, f)
  {
    ApplyFilterAppend([r], t, f);
    ApplyFilterSingle(r, f);
  }

  /** The result keeps the table's order: it is a subsequence of the table. */
  lemma {:induction false} ApplyFilterInOrder(table: seq<Record>, f: Filters)
    ensures IsSubseq(ApplyFilter(table, f), table)
    decreases |table|
  {
    if |table| > 0 {
      var t := table[1..];
      assert table == [table[0]] + t;
      ApplyFilterCons(table[0], t, f);
      ApplyFilterInOrder(t, f);
      var rows := ApplyFilter(table, f);
      if Matches(table[0], f) {
        assert rows[1..] == ApplyFilter(t, f);
      } else if |rows| > 0 {
        assert rows == ApplyFilter(t, f);
        assert Matches(rows[0], f);
        assert rows[0] != table[0];
      }
    }
  }

  /** Every row appears in the result as often as in the table if it matches, else never. */
  lemma {:induction false} ApplyFilterCount(table: seq<Record>, f: Filters, r: Record)
    ensures Count(ApplyFilter(table, f), r) == if Matches(r, f) then Count(table, r) else 0
    decreases |table|
  {
    if |table| > 0 {
      var t := table[1..];
      assert table == [table[0]] + t;
      ApplyFilterCons(table[0], t, f);
      ApplyFilterCount(t, f, r);
      CountAppend(if Matches(table[0], f) then [table[0]] else [], ApplyFilter(t, f), r);
    } else {
      assert ApplyFilter(table, f) == [];
    }
  }

  /** With no finding key and no view constraint the table comes back unchanged. */
  lemma {:induction false} ApplyFilterInactive(table: seq<Record>, f: Filters)
    requires f.finding.None?
    requires f.viewPosition.None? || f.viewPosition == Some(AnyView)
    ensures ApplyFilter(table, f) == table
    decreases |table|
  {
    if |table| > 0 {
      ApplyFilterCons(table[0], table[1..], f);
      ApplyFilterInactive(table[1..], f);
      assert table == [table[0]] + table[1..];
    }
  }

  /** Which record is pinned has no effect on which rows match. */
  lemma ApplyFilterIgnoresPin(table: seq<Record>, f: Filters, pin: Option<string>)
    ensures ApplyFilter(table, f.(file := pin)) == ApplyFilter(table, f)
  {
    var g := f.(file := pin);
    assert forall r :: Passes(r, g, ViewStage) == Passes(r, f, ViewStage);
    assert forall r :: Passes(r, g, FindingStage) == Passes(r, f, FindingStage);
    KeepSamePasses(table, f, g, ViewStage);
    KeepSamePasses(Keep(table, f, ViewStage), f, g, FindingStage);
  }

  lemma {:induction false} KeepSamePasses(rows: seq<Record>, f: Filters, g: Filters, stage: Stage)
    requires forall r :: Passes(r, g, stage) == Passes(r, f, stage)
    ensures Keep(rows, g, stage) == Keep(rows, f, stage)
    decreases |rows|
  {
    if |rows| > 0 {
      KeepSamePasses(rows[1..], f, g, stage);
    }
  }
}

=== FILE: filter_form.dfy ===
/**
 The filter form (main.py:167-192): the view-position selectbox, one
 checkbox per vocabulary tag, and the "Random CXR" submit button. A
 widget that already holds a value in the session returns it; one that
 does not returns its default.
 */
module FilterForm {
  import opened Wrappers
  import opened Seqs
  import opened Query

  /** The selectbox options, in display order. */
  const ViewOptions: seq<string> := ["Any", "PA", "AP"]

  // ---------------------------------------------------------------
  // View position selectbox (main.py:169-170)
  // ---------------------------------------------------------------

  /**
   The selectbox's initial index: 0 when the view position is absent or
   "Any", 1 for "PA", and 2 for every other value.
   */
  function SelectIndex(f: Filters): (i: nat)
    ensures i < |ViewOptions|
    ensures i == 0 <==> f.viewPosition.None? || f.viewPosition.value == "Any"
    ensures i == 1 <==> f.viewPosition == Some("PA")
  {
    if f.viewPosition.None? || f.viewPosition.value == "Any" then 0
    else if f.viewPosition.value == "PA" then 1
    else 2
  }

  /** The value a selectbox holding `widget` (if anything) hands back. */
  predicate ValidView(widget: Option<nat>) {
    widget.Some? ==> widget.value < |ViewOptions|
  }

  /** The form's assignment `filters['view_position'] = st.selectbox(...)`. */
  function ChooseView(f: Filters, widget: Option<nat>): (g: Filters)
    requires ValidView(widget)
    ensures g.viewPosition.Some? && g.viewPosition.value in ViewOptions
    ensures widget.Some? ==> g.viewPosition == Some(ViewOptions[widget.value])
    ensures g.file == f.file && g.finding == f.finding
  {
    f.(viewPosition := Some(ViewOptions[widget.GetOr(SelectIndex(f))]))
  }

  /**
   Left at its default, the selectbox keeps an absent view position as
   "Any" and a listed one as it is; any other value becomes "AP".
   */
  lemma DefaultViewChoice(f: Filters)
    ensures f.viewPosition.None? ==> ChooseView(f, None).viewPosition == Some("Any")
    ensures f.viewPosition.Some? && f.viewPosition.value in ViewOptions ==>
      ChooseView(f, None).viewPosition == f.viewPosition
    ensures f.viewPosition.Some? && f.viewPosition.value !in ViewOptions ==>
      ChooseView(f, None).viewPosition == Some("AP")
  {
  }

  // ---------------------------------------------------------------
  // Finding checkboxes (main.py:172-185)
  // ---------------------------------------------------------------

  /** The value held by the checkbox with key index `i`, if it has been shown before. */
  function WidgetAt(checks: seq<Option<bool>>, i: nat): Option<bool> {
    if i < |checks| then checks[i] else None
  }

  /** Checkbox `i` returned true. */
  predicate Checked(selected: seq<bool>, i: nat) {
    i < |selected| && selected[i]
  }

  /**
   Adds a checked tag: creates the list when the key is absent, appends
   when the tag is not yet in it (main.py:181-185).
   */
  function AddTag(acc: Option<seq<string>>, key: string): Option<seq<string>> {
    match acc
    case None => Some([key])
    case Some(l) => if key in l then acc else Some(l + [key])
  }

  /**
   The finding list after the first `n` checkboxes: the key starts absent
   (`del filters['finding']`) and each checked tag is added in turn.
   */
  function Rebuild(vocab: seq<string>, selected: seq<bool>, n: nat): (r: Option<seq<string>>)
    requires n <= |vocab|
    ensures r.None? <==> forall i :: 0 <= i < n ==> !Checked(selected, i)
    ensures r.Some? ==> |r.value| > 0 && NoDup(r.value)
    ensures r.Some? ==> forall x :: x in r.value <==>
      exists i :: 0 <= i < n && Checked(selected, i) && vocab[i] == x
    decreases n
  {
    if n == 0 then None
    else
      var acc := Rebuild(vocab, selected, n - 1);
      if !Checked(selected, n - 1) then acc
      else if acc.None? then AddTag(acc, vocab[n - 1])
      else
        NoDupSnoc(acc.value, vocab[n - 1]);
        AddTag(acc, vocab[n - 1])
  }

  /** The tags of the checked boxes, in vocabulary order. */
  function CheckedTags(vocab: seq<string>, selected: seq<bool>, n: nat): seq<string>
    requires n <= |vocab|
    decreases n
  {
    if n == 0 then []
    else CheckedTags(vocab, selected, n - 1) + (if Checked(selected, n - 1) then [vocab[n - 1]] else [])
  }

  lemma {:induction false} CheckedTagsMembership(vocab: seq<string>, selected: seq<bool>, n: nat, x: string)
    requires n <= |vocab|
    ensures x in CheckedTags(vocab, selected, n) <==>
      exists i :: 0 <= i < n && Checked(selected, i) && vocab[i] == x
    decreases n
  {
    if n > 0 {
      CheckedTagsMembership(vocab, selected, n - 1, x);
    }
  }

  /**
   Over a vocabulary without repeats the rebuilt list is exactly the
   checked tags in vocabulary order, and absent (never empty) when no box
   is checked.
   */
  lemma {:induction false} RebuildIsCheckedTags(vocab: seq<string>, selected: seq<bool>, n: nat)
    requires n <= |vocab|
    requires NoDup(vocab)
    ensures Rebuild(vocab, selected, n) ==
      if CheckedTags(vocab, selected, n) == [] then None else Some(CheckedTags(vocab, selected, n))
    decreases n
  {
    if n > 0 {
      RebuildIsCheckedTags(vocab, selected, n - 1);
      var acc := Rebuild(vocab, selected, n - 1);
      var prev := CheckedTags(vocab, selected, n - 1);
      assert forall i :: 0 <= i < n - 1 ==> vocab[i] != vocab[n - 1];
      if Checked(selected, n - 1) {
        assert CheckedTags(vocab, selected, n) == prev + [vocab[n - 1]];
        if acc.Some? {
          assert vocab[n - 1] !in acc.value;
        } else {
          assert prev + [vocab[n - 1]] == [vocab[n - 1]];
        }
      } else {
        assert CheckedTags(vocab, selected, n) == prev + [] == prev;
        assert Rebuild(vocab, selected, n) == acc;
      }
    }
  }

  /** The finding key after the whole form: all checkboxes read. */
  function RebuildFindings(vocab: seq<string>, selected: seq<bool>): Option<seq<string>> {
    Rebuild(vocab, selected, |vocab|)
  }

  /**
   The checkbox default, corrected: a tag starts checked when it is in the
   finding list read from the address.
   */
  function Default(urlFinding: Option<seq<string>>, key: string): bool {
    urlFinding.Some? && key in urlFinding.value
  }

  /** What each checkbox returns: its held value, else its default. */
  function CheckboxValues(vocab: seq<string>, checks: seq<Option<bool>>, urlFinding: Option<seq<string>>): (sel: seq<bool>)
    ensures |sel| == |vocab|
  {
    seq(|vocab|, i requires 0 <= i < |vocab| => WidgetAt(checks, i).GetOr(Default(urlFinding, vocab[i])))
  }

  /**
   A shared address opened in a fresh session (no checkbox holds a value)
   keeps its finding filter: exactly the address's tags that are in the
   vocabulary end up in the rebuilt list.
   */
  lemma SharedFindingsKept(vocab: seq<string>, urlFinding: Option<seq<string>>)
    ensures var r := RebuildFindings(vocab, CheckboxValues(vocab, [], urlFinding));
      && (urlFinding.None? ==> r.None?)
      && (r.Some? ==> forall x :: x in r.value <==> x in vocab && x in urlFinding.value)
      && (urlFinding.Some? && (exists x :: x in vocab && x in urlFinding.value) ==> r.Some?)
  {
    var sel := CheckboxValues(vocab, [], urlFinding);
    var r := RebuildFindings(vocab, sel);
    assert forall i :: 0 <= i < |vocab| ==> (Checked(sel, i) <==> Default(urlFinding, vocab[i]));
    if urlFinding.Some? && (exists x :: x in vocab && x in urlFinding.value) {
      var x :| x in vocab && x in urlFinding.value;
      var i :| 0 <= i < |vocab| && vocab[i] == x;
      assert Checked(sel, i);
    }
  }

  /**
   The source's loop as written: `filters['finding']` has already been
   deleted when each checkbox's default is computed, so the default asks
   whether the tag is in the list rebuilt so far.
   */
  function RebuildAsWritten(vocab: seq<string>, checks: seq<Option<bool>>, n: nat): Option<seq<string>>
    requires n <= |vocab|
    decreases n
  {
    if n == 0 then None
    else
      var acc := RebuildAsWritten(vocab, checks, n - 1);
      var key := vocab[n - 1];
      var default := acc.Some? && key in acc.value;
      if WidgetAt(checks, n - 1).GetOr(default) then AddTag(acc, key) else acc
  }

  /**
   As written, every checkbox without a held value starts unchecked,
   whatever the address says: the loop behaves as if no finding had been
   read from the address.
   */
  lemma {:induction false} AsWrittenIgnoresAddress(vocab: seq<string>, checks: seq<Option<bool>>, n: nat)
    requires n <= |vocab|
    requires NoDup(vocab)
    ensures RebuildAsWritten(vocab, checks, n) == Rebuild(vocab, CheckboxValues(vocab, checks, None), n)
    decreases n
  {
    if n > 0 {
      AsWrittenIgnoresAddress(vocab, checks, n - 1);
      var acc := RebuildAsWritten(vocab, checks, n - 1);
      assert forall i :: 0 <= i < n - 1 ==> vocab[i] != vocab[n - 1];
      assert acc.Some? ==> vocab[n - 1] !in acc.value;
    }
  }

  /**
   The input that shows it: opening `?finding=Effusion` in a fresh session
   loses the finding filter as written, and keeps it with the corrected
   defaults.
   */
  lemma SharedFindingDroppedAsWritten()
    ensures RebuildAsWritten(["Effusion", "Nodule"], [], 2) == None
    ensures RebuildFindings(["Effusion", "Nodule"],
      CheckboxValues(["Effusion", "Nodule"], [], Some(["Effusion"]))) == Some(["Effusion"])
  {
  }

  // ---------------------------------------------------------------
  // "Random CXR" (main.py:187-192)
  // ---------------------------------------------------------------

  /** Submitting the form unpins the record and changes nothing else. */
  function ClearPin(f: Filters): (g: Filters)
    ensures g.file.None?
    ensures g.finding == f.finding && g.viewPosition == f.viewPosition
  {
    f.(file := None)
  }
}

=== FILE: history.dfy ===
/**
 The browsing history (main.py:228-230): the shown record's id moves to
 the front of the list.
 */
module History {
  import opened Seqs

  /** Python's `list.remove(x)`: drops the first occurrence only. */
  function RemoveFirst(h: seq<string>, x: string): seq<string>
    decreases |h|
  {
    if |h| == 0 then []
    else if h[0] == x then h[1..]
    else [h[0]] + RemoveFirst(h[1..], x)
  }

  lemma {:induction false} RemoveFirstFacts(h: seq<string>, x: string)
    requires x in h
    ensures |RemoveFirst(h, x)| == |h| - 1
    ensures Count(RemoveFirst(h, x), x) == Count(h, x) - 1
    ensures forall y :: y != x ==> Count(RemoveFirst(h, x), y) == Count(h, y)
    ensures Without(RemoveFirst(h, x), x) == Without(h, x)
    ensures NoDup(h) ==> NoDup(RemoveFirst(h, x)) && x !in RemoveFirst(h, x)
    decreases |h|
  {
    var r := RemoveFirst(h, x);
    if h[0] == x {
      assert h == [x] + h[1..];
      NoDupCons(x, h[1..]);
      assert Without(h, x) == [] + Without(h[1..], x);
    } else {
      var t := RemoveFirst(h[1..], x);
      RemoveFirstFacts(h[1..], x);
      assert r == [h[0]] + t;
      assert r[1..] == t;
      NoDupCons(h[0], h[1..]);
      NoDupCons(h[0], t);
      if NoDup(h) {
        forall k | 0 <= k < |t|
          ensures t[k] in h[1..]
        {
          RemoveFirstSubset(h[1..], x, t[k]);
        }
      }
    }
  }

  lemma {:induction false} RemoveFirstSubset(h: seq<string>, x: string, y: string)
    requires y in RemoveFirst(h, x)
    ensures y in h
    decreases |h|
  {
    if h[0] != x && y != h[0] {
      RemoveFirstSubset(h[1..], x, y);
    }
  }

  /**
   Moves `id` to index 0: removed first if present, then inserted at the
   front. Other entries keep their order; a list without repeats stays so.
   */
  function MoveToFront(h: seq<string>, id: string): (h': seq<string>)
    ensures |h'| > 0 && h'[0] == id
    ensures |h'| == if id in h then |h| else |h| + 1
    ensures Count(h', id) == if Count(h, id) == 0 then 1 else Count(h, id)
    ensures forall y :: y != id ==> Count(h', y) == Count(h, y)
    ensures Without(h', id) == Without(h, id)
    ensures NoDup(h) ==> NoDup(h') && Count(h', id) == 1
  {
    var rest := if id in h then RemoveFirst(h, id) else h;
    CountMembership(h, id);
    if id in h then
      RemoveFirstFacts(h, id);
      NoDupCount(h, id);
      InsertFrontFacts(rest, id);
      [id] + rest
    else
      InsertFrontFacts(rest, id);
      [id] + rest
  }

  /** `insert(0, id)`: what putting `id` in front of `rest` does to counts, order and repeats. */
  lemma InsertFrontFacts(rest: seq<string>, id: string)
    ensures Count([id] + rest, id) == 1 + Count(rest, id)
    ensures forall y :: y != id ==> Count([id] + rest, y) == Count(rest, y)
    ensures Without([id] + rest, id) == Without(rest, id)
    ensures NoDup(rest) && id !in rest ==> NoDup([id] + rest)
  {
  }

  /** Re-showing the record already at the front leaves the history as it is. */
  lemma MoveToFrontAtFront(h: seq<string>, id: string)
    requires |h| > 0 && h[0] == id
    ensures MoveToFront(h, id) == h
  {
  }
}

=== FILE: query.dfy ===
/**
 The filter state and its query-parameter form (main.py:94-114): the
 filter state travels in the page address so that a view can be shared.
 */
module Query {
  import opened Wrappers

  /**
   The filter map: each of its three keys may be absent. `finding` keeps
   the whole repeated parameter, the other two a single value.
   */
  datatype Filters = Filters(
    file: Option<string>,
    finding: Option<seq<string>>,
    viewPosition: Option<string>
  )

  /** The page's query parameters: every key maps to its list of values. */
  type QueryParams = map<string, seq<string>>

  const FileKey: string := "file"
  const FindingKey: string := "finding"
  const ViewKey: string := "view_position"

  /** The keys the filter state is read from. */
  const Known: set<string> := {FileKey, FindingKey, ViewKey}

  /**
   The decoder reads the first value of `file` and `view_position`, so
   those keys, when present, carry at least one value (as parameters read
   from an address always do).
   */
  predicate WellFormed(q: QueryParams) {
    && (FileKey in q ==> |q[FileKey]| > 0)
    && (ViewKey in q ==> |q[ViewKey]| > 0)
  }

  /** `query_to_filters`: keeps the present keys, ignores all others. */
  function Decode(q: QueryParams): (f: Filters)
    requires WellFormed(q)
    ensures f.file.Some? <==> FileKey in q
    ensures f.file.Some? ==> f.file.value == q[FileKey][0]
    ensures f.finding.Some? <==> FindingKey in q
    ensures f.finding.Some? ==> f.finding.value == q[FindingKey]
    ensures f.viewPosition.Some? <==> ViewKey in q
    ensures f.viewPosition.Some? ==> f.viewPosition.value == q[ViewKey][0]
  {
    Filters(
      if FileKey in q then Some(q[FileKey][0]) else None,
      if FindingKey in q then Some(q[FindingKey]) else None,
      if ViewKey in q then Some(q[ViewKey][0]) else None)
  }

  /** The parameters for one optional single-valued key. */
  function Single(key: string, v: Option<string>): QueryParams {
    match v
    case Some(x) => map[key := [x]]
    case None => map[]
  }

  /**
   `filters_to_query`: exactly the present keys are emitted, the single
   values as one-element lists and the finding list as it is.
   */
  function Encode(f: Filters): (q: QueryParams)
    ensures q.Keys <= Known
    ensures WellFormed(q)
    ensures FileKey in q <==> f.file.Some?
    ensures FindingKey in q <==> f.finding.Some?
    ensures ViewKey in q <==> f.viewPosition.Some?
  {
    var finding: QueryParams :=
      match f.finding
      case Some(l) => map[FindingKey := l]
      case None => map[];
    Single(FileKey, f.file) + finding + Single(ViewKey, f.viewPosition)
  }

  /** Decoding what was encoded gives the same filter state back. */
  lemma DecodeEncode(f: Filters)
    ensures Decode(Encode(f)) == f
  {
  }

  /** The known keys of `q`, with their values. */
  function KnownPart(q: QueryParams): QueryParams {
    map k | k in q && k in Known :: q[k]
  }

  /**
   Encoding the decoded state re-emits the known keys exactly when their
   single-valued keys held one value: only the first value is kept.
   */
  lemma EncodeDecode(q: QueryParams)
    requires WellFormed(q)
    ensures Encode(Decode(q)) == KnownPart(q) <==>
      && (FileKey in q ==> |q[FileKey]| == 1)
      && (ViewKey in q ==> |q[ViewKey]| == 1)
  {
    var e := Encode(Decode(q));
    var k := KnownPart(q);
    assert FileKey in e ==> e[FileKey] == [q[FileKey][0]];
    assert ViewKey in e ==> e[ViewKey] == [q[ViewKey][0]];
    assert FindingKey in e ==> e[FindingKey] == q[FindingKey];
    if (FileKey in q ==> |q[FileKey]| == 1) && (ViewKey in q ==> |q[ViewKey]| == 1) {
      assert FileKey in q ==> q[FileKey] == [q[FileKey][0]];
      assert ViewKey in q ==> q[ViewKey] == [q[ViewKey][0]];
      assert e.Keys == k.Keys;
    }
    if e == k {
      assert FileKey in q ==> e[FileKey] == q[FileKey];
      assert ViewKey in q ==> e[ViewKey] == q[ViewKey];
    }
  }

  /** Parameters other than the three known keys do not affect decoding. */
  lemma DecodeIgnoresUnknown(q: QueryParams, key: string, values: seq<string>)
    requires WellFormed(q)
    requires key !in Known
    ensures WellFormed(q[key := values])
    ensures Decode(q[key := values]) == Decode(q)
  {
  }
}

=== FILE: records.dfy ===
/**
 The record table: one row per chest X-ray image, keyed by the image file
 name, and the two cell converters applied while the metadata table is read
 (main.py:121-137).
 */
module Records {
  import opened Wrappers
  import opened Seqs

  /** One image's metadata row after conversion. */
  datatype Record = Record(
    id: string,              // 'Image Index', the table's index
    findings: seq<string>,   // 'Finding Labels', split on '|'
    followUp: int,           // 'Follow-up #'
    patientId: int,          // 'Patient ID'
    age: int,                // 'Patient Age', unit letter dropped
    gender: string,          // 'Patient Gender'
    viewPosition: string     // 'View Position'
  )

  /** One row as it stands in the file, before the converters run. */
  datatype RawRow = RawRow(
    id: string,
    labels: string,
    followUp: int,
    patientId: int,
    ageCell: string,
    gender: string,
    viewPosition: string
  )

  /** Why a row could not be converted. */
  datatype LoadError = BadAge(id: string, cell: string)

  /** The separator of the finding-labels cell. */
  const Sep: char := '|'

  /**
   Image identifiers are unique. The data set has one row per image file;
   reading the file with that column as index does not check it.
   */
  predicate UniqueIds(table: seq<Record>) {
    forall i, j :: 0 <= i < j < |table| ==> table[i].id != table[j].id
  }

  // ---------------------------------------------------------------
  // Finding labels: str.split('|')
  // ---------------------------------------------------------------

  /**
   Python's `s.split('|')`: the pieces between separators, so an empty cell
   gives one empty piece and `k` separators give `k + 1` pieces.
   */
  function Split(s: string): (parts: seq<string>)
    ensures |parts| == Count(s, Sep) + 1
    ensures forall k :: 0 <= k < |parts| ==> Sep !in parts[k]
    decreases |s|
  {
    if |s| == 0 then [""]
    else
      var rest := Split(s[1..]);
      if s[0] == Sep then [""] + rest
      else [[s[0]] + rest[0]] + rest[1..]
  }

  /** `'|'.join(parts)`, the inverse of `Split`. */
  function Join(parts: seq<string>): string
    decreases |parts|
  {
    if |parts| == 0 then ""
    else if |parts| == 1 then parts[0]
    else parts[0] + [Sep] + Join(parts[1..])
  }

  /** Splitting loses nothing: joining the pieces gives the cell back. */
  lemma {:induction false} JoinSplit(s: string)
    ensures Join(Split(s)) == s
    decreases |s|
  {
    if |s| > 0 {
      var rest := Split(s[1..]);
      JoinSplit(s[1..]);
      assert s == [s[0]] + s[1..];
      if s[0] == Sep {
        assert ([""] + rest)[1..] == rest;
      } else {
        var parts := [[s[0]] + rest[0]] + rest[1..];
        if |rest| > 1 {
          assert parts[1..] == rest[1..];
        }
      }
    }
  }

  /** A separator-free prefix glues onto the first piece of the rest. */
  lemma {:induction false} SplitPrefix(p: string, t: string)
    requires Sep !in p
    ensures Split(p + t) == [p + Split(t)[0]] + Split(t)[1..]
    decreases |p|
  {
    if |p| > 0 {
      SplitPrefix(p[1..], t);
      assert (p + t)[1..] == p[1..] + t;
      assert p[0] != Sep;
      assert [p[0]] + (p[1..] + Split(t)[0]) == p + Split(t)[0];
    } else {
      var st := Split(t);
      assert p + t == t && p + st[0] == st[0];
      assert st == [st[0]] + st[1..];
    }
  }

  /** Pieces without separators are recovered by splitting their join. */
  lemma {:induction false} SplitJoin(parts: seq<string>)
    requires |parts| > 0
    requires forall k :: 0 <= k < |parts| ==> Sep !in parts[k]
    ensures Split(Join(parts)) == parts
    decreases |parts|
  {
    if |parts| == 1 {
      SplitPrefix(parts[0], "");
      assert Split("") == [""];
      assert parts[0] + "" == parts[0];
      assert parts == [parts[0]];
    } else {
      var tail := Join(parts[1..]);
      SplitJoin(parts[1..]);
      var t := [Sep] + tail;
      assert Split(t) == [""] + Split(tail) by {
        assert t[0] == Sep && t[1..] == tail;
      }
      SplitPrefix(parts[0], t);
      assert Join(parts) == parts[0] + t;
      assert Split(t)[0] == "" && Split(t)[1..] == parts[1..];
      assert parts[0] + "" == parts[0];
      assert parts == [parts[0]] + parts[1..];
    }
  }

  // ---------------------------------------------------------------
  // Patient age: int(x[:-1])
  // ---------------------------------------------------------------

  predicate IsDigit(c: char) {
    '0' <= c <= '9'
  }

  predicate AllDigits(s: string) {
    forall k :: 0 <= k < |s| ==> IsDigit(s[k])
  }

  /** The decimal value of a digit string, most significant digit first. */
  function DigitsValue(s: string): nat
    requires AllDigits(s)
    decreases |s|
  {
    if |s| == 0 then 0
    else DigitsValue(s[..|s| - 1]) * 10 + ((s[|s| - 1] as int) - ('0' as int))
  }

  /** Python's `int(s)` on an optionally signed run of decimal digits. */
  function ParseInt(s: string): Option<int> {
    if |s| > 0 && (s[0] == '-' || s[0] == '+') then
      var body := s[1..];
      if |body| > 0 && AllDigits(body) then
        Some(if s[0] == '-' then 0 - DigitsValue(body) as int else DigitsValue(body))
      else None
    else if |s| > 0 && AllDigits(s) then Some(DigitsValue(s))
    else None
  }

  /**
   The age converter `int(x[:-1])`: the last character (the unit letter,
   as in "058Y") is dropped and the rest read as an integer; `x[:-1]` of
   an empty cell is empty, which does not parse.
   */
  function AgeParse(id: string, cell: string): (r: Result<int, LoadError>)
    ensures |cell| < 2 ==> r == Failure(BadAge(id, cell))
    ensures r.Failure? ==> r.error == BadAge(id, cell)
    ensures r.Success? <==> (
      && |cell| >= 2
      && var body := cell[..|cell| - 1];
         AllDigits(body) || ((body[0] == '+' || body[0] == '-') && |body| > 1 && AllDigits(body[1..])))
  {
    var body := if |cell| == 0 then cell else cell[..|cell| - 1];
    match ParseInt(body)
    case Some(n) => Success(n)
    case None => Failure(BadAge(id, cell))
  }

  /** The digits of `n` without leading zeros. */
  function ShowNat(n: nat): (s: string)
    ensures |s| > 0 && AllDigits(s)
    decreases n
  {
    if n < 10 then [(('0' as int) + n) as char]
    else ShowNat(n / 10) + [(('0' as int) + n % 10) as char]
  }

  lemma {:induction false} ShowNatValue(n: nat)
    ensures DigitsValue(ShowNat(n)) == n
    decreases n
  {
    if n >= 10 {
      ShowNatValue(n / 10);
      var s := ShowNat(n);
      assert s[..|s| - 1] == ShowNat(n / 10);
    }
  }

  /**
   Any digit string followed by a unit letter parses to the digits' value,
   whatever the unit letter is.
   */
  lemma AgeParseDigits(id: string, digits: string, unit: char)
    requires |digits| > 0 && AllDigits(digits)
    ensures AgeParse(id, digits + [unit]) == Success(DigitsValue(digits))
  {
  }

  /** Writing an age with a unit letter and parsing it gives the age back. */
  lemma AgeRoundTrip(id: string, age: nat, unit: char)
    ensures AgeParse(id, ShowNat(age) + [unit]) == Success(age)
  {
  }

  // ---------------------------------------------------------------
  // Loading the table
  // ---------------------------------------------------------------

  /** Applies both converters to one raw row. */
  function LoadRow(raw: RawRow): (r: Result<Record, LoadError>)
    ensures r.Success? ==>
      && r.value.id == raw.id
      && r.value.viewPosition == raw.viewPosition
      && r.value.followUp == raw.followUp
      && r.value.patientId == raw.patientId
      && r.value.gender == raw.gender
      && Join(r.value.findings) == raw.labels
      && (forall k :: 0 <= k < |r.value.findings| ==> Sep !in r.value.findings[k])
      && |r.value.findings| > 0
      && AgeParse(raw.id, raw.ageCell) == Success(r.value.age)
    ensures r.Failure? <==> AgeParse(raw.id, raw.ageCell).Failure?
  {
    match AgeParse(raw.id, raw.ageCell)
    case Failure(e) => Failure(e)
    case Success(age) =>
      JoinSplit(raw.labels);
      Success(Record(raw.id, Split(raw.labels), raw.followUp, raw.patientId,
                     age, raw.gender, raw.viewPosition))
  }

  /**
   Converts every row in file order; the first row whose age cell does not
   parse aborts the whole load.
   */
  function LoadTable(rows: seq<RawRow>): (r: Result<seq<Record>, LoadError>)
    ensures r.Success? ==>
      && |r.value| == |rows|
      && forall k :: 0 <= k < |rows| ==> LoadRow(rows[k]) == Success(r.value[k])
    ensures r.Failure? <==> exists k :: 0 <= k < |rows| && LoadRow(rows[k]).Failure?
    decreases |rows|
  {
    if |rows| == 0 then Success([])
    else
      match LoadRow(rows[0])
      case Failure(e) => Failure(e)
      case Success(rec) =>
        match LoadTable(rows[1..])
        case Failure(e) => Failure(e)
        case Success(rest) => Success([rec] + rest)
  }

  // ---------------------------------------------------------------
  // Finding vocabulary: pd.unique(record_df['Finding Labels'].explode())
  // ---------------------------------------------------------------

  /** Every row's tags, row after row. */
  function AllTags(table: seq<Record>): seq<string>
    decreases |table|
  {
    if |table| == 0 then [] else table[0].findings + AllTags(table[1..])
  }

  lemma {:induction false} AllTagsMembership(table: seq<Record>, t: string)
    ensures t in AllTags(table) <==> exists k :: 0 <= k < |table| && t in table[k].findings
    decreases |table|
  {
    if |table| > 0 {
      AllTagsMembership(table[1..], t);
      if t in AllTags(table[1..]) {
        var k :| 0 <= k < |table| - 1 && t in table[1..][k].findings;
        assert t in table[k + 1].findings;
      }
      forall k | 1 <= k < |table| && t in table[k].findings
        ensures t in AllTags(table[1..])
      {
        assert table[1..][k - 1] == table[k];
      }
    }
  }

  /** The distinct tags of the table in order of first appearance. */
  function Vocabulary(table: seq<Record>): seq<string> {
    Dedup(AllTags(table))
  }

  /**
   The vocabulary lists each tag used by some row exactly once, and lists
   nothing else; earlier entries are first used by earlier rows.
   */
  lemma VocabularyExact(table: seq<Record>)
    ensures NoDup(Vocabulary(table))
    ensures forall t :: t in Vocabulary(table) <==>
      exists k :: 0 <= k < |table| && t in table[k].findings
    ensures forall i, j :: 0 <= i < j < |Vocabulary(table)| ==>
      FirstIndex(AllTags(table), Vocabulary(table)[i]) < FirstIndex(AllTags(table), Vocabulary(table)[j])
  {
    var all := AllTags(table);
    var v := Vocabulary(table);
    forall t
      ensures t in v <==> exists k :: 0 <= k < |table| && t in table[k].findings
    {
      AllTagsMembership(table, t);
    }
    DedupFirstAppearance(all);
  }
}

=== FILE: selection.dfy ===
/**
 Choosing the record to show (main.py:213-226): an empty filtered table
 stops the run; otherwise an unpinned state draws a row of the filtered
 table and pins it, and a pinned state looks its record up in the full
 table.
 */
module Selection {
  import opened Wrappers
  import opened Records
  import opened Query
  import opened FilterEngine
  import opened FilterForm

  /** Why the run stops without showing a record. */
  datatype Halt =
    | NoMatches                   // "No CXRs found with the selected filters."
    | RecordNotFound(id: string)  // `record_df.loc[...]` raises for an unknown id

  /** The shown record, the state that now pins it, and whether it was drawn. */
  datatype Resolved = Resolved(filters: Filters, record: Record, drawn: bool)

  /**
   `record_df.loc[id]` on a table whose image ids are unique: the row with
   that id, if any. (On a repeated id pandas returns all such rows; this
   takes the first.)
   */
  function Lookup(table: seq<Record>, id: string): (found: Option<Record>)
    ensures found.Some? ==> found.value in table && found.value.id == id
    ensures found.None? <==> forall k :: 0 <= k < |table| ==> table[k].id != id
    decreases |table|
  {
    if |table| == 0 then None
    else if table[0].id == id then Some(table[0])
    else Lookup(table[1..], id)
  }

  /** With unique ids, looking up a row's id finds that very row. */
  lemma LookupUnique(table: seq<Record>, r: Record)
    requires UniqueIds(table)
    requires r in table
    ensures Lookup(table, r.id) == Some(r)
  {
  }

  /** The random draw `randint(0, len - 1)` lies in the filtered table. */
  predicate DrawInRange(table: seq<Record>, f: Filters, draw: nat) {
    |ApplyFilter(table, f)| > 0 ==> draw < |ApplyFilter(table, f)|
  }

  /**
   The selection step. The emptiness check comes first, so it applies
   to a pinned state too.
   */
  function Resolve(table: seq<Record>, f: Filters, draw: nat): (res: Result<Resolved, Halt>)
    requires DrawInRange(table, f, draw)
    ensures res == Failure(NoMatches) <==> ApplyFilter(table, f) == []
    ensures res.Success? ==>
      && res.value.record in table
      && res.value.filters.file == Some(res.value.record.id)
      && res.value.filters.finding == f.finding
      && res.value.filters.viewPosition == f.viewPosition
      && (res.value.drawn <==> f.file.None?)
    ensures res.Success? && res.value.drawn ==>
      res.value.record == ApplyFilter(table, f)[draw] && Matches(res.value.record, f)
    ensures res.Success? && !res.value.drawn ==> res.value.filters == f
    ensures res.Failure? && res.error.RecordNotFound? ==>
      && f.file == Some(res.error.id)
      && forall k :: 0 <= k < |table| ==> table[k].id != res.error.id
  {
    var filtered := ApplyFilter(table, f);
    if |filtered| == 0 then Failure(NoMatches)
    else if f.file.None? then
      var record := filtered[draw];
      Success(Resolved(f.(file := Some(record.id)), record, true))
    else
      match Lookup(table, f.file.value)
      case None => Failure(RecordNotFound(f.file.value))
      case Some(record) => Success(Resolved(f, record, false))
  }

  /** Without a pin, a non-empty filtered table always yields a matching record. */
  lemma RandomDrawMatches(table: seq<Record>, f: Filters, draw: nat)
    requires f.file.None?
    requires draw < |ApplyFilter(table, f)|
    ensures Resolve(table, f, draw).Success?
    ensures var res := Resolve(table, f, draw).value;
      && res.drawn
      && res.record in ApplyFilter(table, f)
      && Matches(res.record, f)
      && res.filters == f.(file := Some(res.record.id))
  {
  }

  /**
   A pinned record is found in the full table, so it is shown even when
   it fails the current filters, as long as the filtered table is not empty.
   */
  lemma PinBypassesFilter(table: seq<Record>, f: Filters, r: Record, draw: nat)
    requires UniqueIds(table)
    requires r in table
    requires f.file == Some(r.id)
    requires ApplyFilter(table, f) != []
    requires DrawInRange(table, f, draw)
    ensures Resolve(table, f, draw) == Success(Resolved(f, r, false))
  {
  }

  /** A pin naming no record of the table is an error, not a fresh draw. */
  lemma MissingPinFails(table: seq<Record>, f: Filters, draw: nat)
    requires f.file.Some?
    requires forall k :: 0 <= k < |table| ==> table[k].id != f.file.value
    requires ApplyFilter(table, f) != []
    requires DrawInRange(table, f, draw)
    ensures Resolve(table, f, draw) == Failure(RecordNotFound(f.file.value))
  {
  }

  /**
   After "Random CXR" clears the pin, the next selection draws from the
   rows the unchanged filters select.
   */
  lemma ClearedPinDraws(table: seq<Record>, f: Filters, draw: nat)
    requires draw < |ApplyFilter(table, ClearPin(f))|
    ensures ApplyFilter(table, ClearPin(f)) == ApplyFilter(table, f)
    ensures var res := Resolve(table, ClearPin(f), draw);
      && res.Success? && res.value.drawn
      && res.value.record == ApplyFilter(table, f)[draw]
  {
    ApplyFilterIgnoresPin(table, f, None);
  }
}

/** A three-row table that exercises both predicates and the pin. */
module SelectionExample {
  import opened Wrappers
  import opened Records
  import opened Query
  import opened FilterEngine
  import opened Selection

  const A: Record := Record("A.png", ["Effusion"], 0, 1, 58, "M", "PA")
  const B: Record := Record("B.png", ["No Finding"], 0, 2, 40, "F", "AP")
  const C: Record := Record("C.png", ["Nodule"], 1, 3, 71, "F", "PA")

  /** View "PA" keeps A and C, in table order. */
  lemma ExampleView()
    ensures ApplyFilter([A, B, C], Filters(None, None, Some("PA"))) == [A, C]
  {
    KeepPaRows(A, B, C);
  }

  lemma KeepPaRows(a: Record, b: Record, c: Record)
    requires a.viewPosition == "PA" && b.viewPosition == "AP" && c.viewPosition == "PA"
    ensures ApplyFilter([a, b, c], Filters(None, None, Some("PA"))) == [a, c]
  {
    var f := Filters(None, None, Some("PA"));
    assert b.viewPosition != "PA";
    assert Matches(a, f) && !Matches(b, f) && Matches(c, f);
    ApplyFilterSingle(c, f);
    ApplyFilterCons(b, [c], f);
    assert [b, c] == [b] + [c];
    ApplyFilterCons(a, [b, c], f);
    assert [a, b, c] == [a] + [b, c];
  }

  /** Finding "Nodule" keeps C only. */
  lemma ExampleFinding()
    ensures ApplyFilter([A, B, C], Filters(None, Some(["Nodule"]), None)) == [C]
  {
    var f := Filters(None, Some(["Nodule"]), None);
    assert "Nodule" in C.findings && "Nodule" in ["Nodule"];
    assert !Matches(A, f) && !Matches(B, f) && Matches(C, f);
    ApplyFilterCons(A, [B, C], f);
    ApplyFilterCons(B, [C], f);
    ApplyFilterSingle(C, f);
    assert [A, B, C] == [A] + [B, C] && [B, C] == [B] + [C];
  }

  /** View "AP" with finding "Nodule" matches nothing, which stops the run. */
  lemma ExampleNoMatches()
    ensures Resolve([A, B, C], Filters(None, Some(["Nodule"]), Some("AP")), 0) == Failure(NoMatches)
  {
  }

  /** A pin on B is shown under the "PA" filter that B fails. */
  lemma ExamplePin()
    ensures !Matches(B, Filters(Some("B.png"), None, Some("PA")))
    ensures Resolve([A, B, C], Filters(Some("B.png"), None, Some("PA")), 0)
      == Success(Resolved(Filters(Some("B.png"), None, Some("PA")), B, false))
  {
    var f := Filters(Some("B.png"), None, Some("PA"));
    ApplyFilterIgnoresPin([A, B, C], Filters(None, None, Some("PA")), Some("B.png"));
    ExampleView();
    assert UniqueIds([A, B, C]);
    PinBypassesFilter([A, B, C], f, B, 0);
  }
}

=== FILE: seqs.dfy ===
/**
 Generic facts about sequences used by the record table, the finding
 vocabulary and the browsing history.
 */
module Seqs {

  /** No value occurs twice in `s`. */
  predicate NoDup<T(==)>(s: seq<T>) {
    forall i, j :: 0 <= i < j < |s| ==> s[i] != s[j]
  }

  lemma NoDupCons<T>(x: T, s: seq<T>)
    ensures NoDup([x] + s) <==> x !in s && NoDup(s)
  {
    var t := [x] + s;
    if x !in s && NoDup(s) {
      forall i, j | 0 <= i < j < |t|
        ensures t[i] != t[j]
      {
        assert t[j] == s[j - 1];
        if i > 0 {
          assert t[i] == s[i - 1];
        }
      }
    }
    if NoDup(t) {
      forall i, j | 0 <= i < j < |s|
        ensures s[i] != s[j]
      {
        assert s[i] == t[i + 1] && s[j] == t[j + 1];
      }
      forall k | 0 <= k < |s|
        ensures s[k] != x
      {
        assert t[0] != t[k + 1];
      }
    }
  }

  lemma NoDupSnoc<T>(s: seq<T>, x: T)
    ensures NoDup(s + [x]) <==> x !in s && NoDup(s)
  {
    var t := s + [x];
    if x !in s && NoDup(s) {
      forall i, j | 0 <= i < j < |t|
        ensures t[i] != t[j]
      {
        assert t[i] == s[i];
        if j < |s| {
          assert t[j] == s[j];
        }
      }
    }
    if NoDup(t) {
      forall i, j | 0 <= i < j < |s|
        ensures s[i] != s[j]
      {
        assert s[i] == t[i] && s[j] == t[j];
      }
      forall k | 0 <= k < |s|
        ensures s[k] != x
      {
        assert t[k] != t[|s|];
      }
    }
  }

  /** Number of occurrences of `x` in `s`. */
  function Count<T(==)>(s: seq<T>, x: T): nat {
    if |s| == 0 then 0 else (if s[0] == x then 1 else 0) + Count(s[1..], x)
  }

  lemma {:induction false} CountMembership<T>(s: seq<T>, x: T)
    ensures x in s <==> Count(s, x) > 0
  {
    if |s| > 0 {
      CountMembership(s[1..], x);
      assert s == [s[0]] + s[1..];
    }
  }

  lemma {:induction false} CountAppend<T>(a: seq<T>, b: seq<T>, x: T)
    ensures Count(a + b, x) == Count(a, x) + Count(b, x)
  {
    if |a| == 0 {
      assert a + b == b;
    } else {
      CountAppend(a[1..], b, x);
      assert (a + b)[1..] == a[1..] + b;
    }
  }

  /** In a sequence without repeats nothing occurs more than once. */
  lemma {:induction false} NoDupCount<T>(s: seq<T>, x: T)
    ensures NoDup(s) ==> Count(s, x) <= 1
  {
    if |s| > 0 && NoDup(s) {
      assert s == [s[0]] + s[1..];
      NoDupCons(s[0], s[1..]);
      NoDupCount(s[1..], x);
      if s[0] == x {
        CountMembership(s[1..], x);
      }
    }
  }

  /** `s` with every occurrence of `x` taken out, the rest in order. */
  function Without<T(==)>(s: seq<T>, x: T): seq<T> {
    if |s| == 0 then [] else (if s[0] == x then [] else [s[0]]) + Without(s[1..], x)
  }

  /** `a` is `b` with some elements left out and the others kept in order. */
  predicate IsSubseq<T(==)>(a: seq<T>, b: seq<T>)
    decreases |b|
  {
    if |a| == 0 then true
    else if |b| == 0 then false
    else if a[0] == b[0] then IsSubseq(a[1..], b[1..])
    else IsSubseq(a, b[1..])
  }

  /** The position of the first occurrence of `x` in `s`. */
  function FirstIndex<T(==)>(s: seq<T>, x: T): (i: nat)
    requires x in s
    ensures i < |s| && s[i] == x && x !in s[..i]
  {
    if s[0] == x then 0
    else
      var j := FirstIndex(s[1..], x);
      assert s[..j + 1] == [s[0]] + s[1..][..j];
      j + 1
  }

  /** Any position before which `x` does not occur is its first index. */
  lemma FirstIndexUnique<T>(s: seq<T>, x: T, i: nat)
    requires i < |s| && s[i] == x && x !in s[..i]
    ensures FirstIndex(s, x) == i
  {
  }

  /**
   The distinct values of `s` in order of first appearance (what a
   stable "unique" over a column yields).
   */
  function Dedup<T(==)>(s: seq<T>): (d: seq<T>)
    ensures NoDup(d)
    ensures forall k :: 0 <= k < |d| ==> d[k] in s
    ensures forall k :: 0 <= k < |s| ==> s[k] in d
    decreases |s|
  {
    if |s| == 0 then []
    else
      var init := s[..|s| - 1];
      var d := Dedup(init);
      assert s == init + [s[|s| - 1]];
      if s[|s| - 1] in d then d
      else
        NoDupSnoc(d, s[|s| - 1]);
        d + [s[|s| - 1]]
  }

  /** Earlier entries of `Dedup(s)` appear earlier in `s`. */
  lemma {:induction false} DedupFirstAppearance<T>(s: seq<T>)
    ensures forall i, j :: 0 <= i < j < |Dedup(s)| ==>
      FirstIndex(s, Dedup(s)[i]) < FirstIndex(s, Dedup(s)[j])
    decreases |s|
  {
    if |s| > 0 {
      var n := |s| - 1;
      var init := s[..n];
      var d := Dedup(init);
      DedupFirstAppearance(init);
      assert s == init + [s[n]];
      forall x | x in init
        ensures FirstIndex(s, x) == FirstIndex(init, x)
      {
        var k := FirstIndex(init, x);
        assert s[..k] == init[..k];
        FirstIndexUnique(s, x, k);
      }
      if s[n] !in d {
        assert s[n] !in s[..n];
        FirstIndexUnique(s, s[n], n);
      }
    }
  }
}

=== FILE: session.dfy ===
/**
 One run of the page script for one session (main.py:117, 167-230): the
 address is decoded, the form updates the filter state, a record is
 selected and the history updated. The record table, the session's
 history and the values its widgets hold are passed in and the new ones
 returned.
 */
module Session {
  import opened Wrappers
  import opened Seqs
  import opened Records
  import opened Query
  import opened FilterEngine
  import opened FilterForm
  import opened Selection
  import opened History

  /** The values the session's widgets hold: the selectbox index and one per checkbox. */
  datatype FormState = FormState(view: Option<nat>, checks: seq<Option<bool>>)

  /** What the page shows at the end of the run. */
  datatype Screen =
    | NoMatchesShown
    | RecordMissing(id: string)
    | Shown(record: Record, matching: nat)

  /** The outcome of a run: the address, history and widget values it leaves behind. */
  datatype Cycle = Cycle(
    query: QueryParams,
    history: seq<string>,
    form: FormState,
    filters: Filters,
    screen: Screen
  )

  predicate ValidForm(form: FormState) {
    ValidView(form.view)
  }

  /**
   The filter state once the form has run: the view position from the
   selectbox, the finding list rebuilt from the checkboxes (defaults taken
   from the address), and the pin dropped when the form was submitted.
   */
  function FormFilters(q: QueryParams, vocab: seq<string>, form: FormState, submitted: bool): (f: Filters)
    requires WellFormed(q) && ValidForm(form)
    ensures submitted ==> f.file.None?
    ensures !submitted ==> f.file == Decode(q).file
    ensures f.viewPosition.Some? && f.viewPosition.value in ViewOptions
    ensures f.viewPosition == ChooseView(Decode(q), form.view).viewPosition
    ensures f.finding.Some? ==> |f.finding.value| > 0 && NoDup(f.finding.value)
    ensures var sel := CheckboxValues(vocab, form.checks, Decode(q).finding);
      f.finding.None? <==> forall i :: 0 <= i < |vocab| ==> !Checked(sel, i)
    ensures var sel := CheckboxValues(vocab, form.checks, Decode(q).finding);
      f.finding.Some? ==> forall x :: x in f.finding.value <==>
        exists i :: 0 <= i < |vocab| && Checked(sel, i) && vocab[i] == x
  {
    var f0 := Decode(q);
    var f1 := ChooseView(f0, form.view);
    var selected := CheckboxValues(vocab, form.checks, f0.finding);
    var f2 := f1.(finding := RebuildFindings(vocab, selected));
    if submitted then ClearPin(f2) else f2
  }

  /** The values every widget holds once this run has shown it. */
  function FormAfter(q: QueryParams, vocab: seq<string>, form: FormState): (after: FormState)
    requires WellFormed(q) && ValidForm(form)
    ensures ValidForm(after) && after.view.Some?
    ensures |after.checks| == |vocab|
    ensures ViewOptions[after.view.value] == ChooseView(Decode(q), form.view).viewPosition.value
    ensures forall i :: 0 <= i < |vocab| ==>
      after.checks[i] == Some(CheckboxValues(vocab, form.checks, Decode(q).finding)[i])
  {
    var f0 := Decode(q);
    var selected := CheckboxValues(vocab, form.checks, f0.finding);
    FormState(
      Some(form.view.GetOr(SelectIndex(f0))),
      seq(|vocab|, i requires 0 <= i < |vocab| => Some(selected[i])))
  }

  /** The random draw is a valid index for this run's filtered table. */
  predicate RunDraw(q: QueryParams, table: seq<Record>, form: FormState, submitted: bool, draw: nat)
    requires WellFormed(q) && ValidForm(form)
  {
    DrawInRange(table, FormFilters(q, Vocabulary(table), form, submitted), draw)
  }

  /**
   One run. The address is rewritten after a submit and after a random
   draw; the history changes only when a record is shown.
   */
  function Run(q: QueryParams, table: seq<Record>, history: seq<string>, form: FormState,
               submitted: bool, draw: nat): (c: Cycle)
    requires WellFormed(q) && ValidForm(form)
    requires RunDraw(q, table, form, submitted, draw)
    ensures WellFormed(c.query) && ValidForm(c.form)
    ensures c.screen == NoMatchesShown <==> ApplyFilter(table, c.filters) == []
    ensures c.screen.Shown? ==>
      && c.screen.record in table
      && |c.history| > 0 && c.history[0] == c.screen.record.id
      && c.filters.file == Some(c.screen.record.id)
      && Decode(c.query).file == Some(c.screen.record.id)
      && c.screen.matching == |ApplyFilter(table, c.filters)|
      && c.screen.matching > 0
    ensures !c.screen.Shown? ==> c.history == history
    ensures NoDup(history) ==> NoDup(c.history)
    ensures c.screen.Shown? ==> c.history == MoveToFront(history, c.screen.record.id)
    ensures c.screen.Shown? && !submitted && Decode(q).file.Some? ==>
      c.screen.record.id == Decode(q).file.value
    ensures c.screen.Shown? && (submitted || Decode(q).file.None?) ==>
      Matches(c.screen.record, c.filters)
    ensures submitted && c.screen.Shown? ==> Decode(c.query) == c.filters
    ensures var f := FormFilters(q, Vocabulary(table), form, submitted);
      c.filters == f.(file := c.filters.file) && (!c.screen.Shown? ==> c.filters == f)
    ensures c.form == FormAfter(q, Vocabulary(table), form)
    ensures c.screen.RecordMissing? <==>
      && ApplyFilter(table, c.filters) != []
      && !submitted && Decode(q).file.Some?
      && forall k :: 0 <= k < |table| ==> table[k].id != Decode(q).file.value
    ensures c.screen.RecordMissing? ==> Decode(q).file == Some(c.screen.id)
    ensures submitted || (c.screen.Shown? && Decode(q).file.None?) ==> c.query == Encode(c.filters)
    ensures !submitted && !(c.screen.Shown? && Decode(q).file.None?) ==> c.query == q
  {
    var vocab := Vocabulary(table);
    var f := FormFilters(q, vocab, form, submitted);
    var q1 := if submitted then Encode(f) else q;
    var after := FormAfter(q, vocab, form);
    match Resolve(table, f, draw)
    case Failure(NoMatches) => Cycle(q1, history, after, f, NoMatchesShown)
    case Failure(RecordNotFound(id)) => Cycle(q1, history, after, f, RecordMissing(id))
    case Success(res) =>
      var q2 := if res.drawn then Encode(res.filters) else q1;
      ApplyFilterIgnoresPin(table, f, res.filters.file);
      DecodeEncode(res.filters);
      assert res.filters == f.(file := res.filters.file);
      Cycle(q2, MoveToFront(history, res.record.id), after, res.filters,
            Shown(res.record, |ApplyFilter(table, f)|))
  }

  /**
   Re-running the page with what a run left behind (its address, history
   and widget values, no submit) reproduces that run exactly: the address
   pins the shown record, so a refresh or a shared link shows it again and
   the history does not change.
   */
  lemma RefreshIsFixpoint(q: QueryParams, table: seq<Record>, history: seq<string>, form: FormState,
                          submitted: bool, draw: nat, draw2: nat)
    requires UniqueIds(table)
    requires WellFormed(q) && ValidForm(form)
    requires RunDraw(q, table, form, submitted, draw)
    requires Run(q, table, history, form, submitted, draw).screen.Shown?
    requires var c := Run(q, table, history, form, submitted, draw);
      RunDraw(c.query, table, c.form, false, draw2)
    ensures var c := Run(q, table, history, form, submitted, draw);
      Run(c.query, table, c.history, c.form, false, draw2) == c
  {
    var c := Run(q, table, history, form, submitted, draw);
    var vocab := Vocabulary(table);
    var f0 := Decode(q);
    var selected := CheckboxValues(vocab, form.checks, f0.finding);
    var f := FormFilters(q, vocab, form, submitted);
    var id := c.screen.record.id;

    // The second run rebuilds the same filter state.
    var g0 := Decode(c.query);
    var selected' := CheckboxValues(vocab, c.form.checks, g0.finding);
    assert selected' == selected;
    var g := FormFilters(c.query, vocab, c.form, false);
    assert g.viewPosition == f.viewPosition;
    assert g.finding == f.finding;
    assert g.file == Some(id);
    assert g == c.filters;

    // It resolves the pin to the same record without drawing.
    LookupUnique(table, c.screen.record);
    assert Resolve(table, g, draw2) == Success(Resolved(g, c.screen.record, false));

    // Widgets, history and address are left as they were.
    var after' := FormAfter(c.query, vocab, c.form);
    assert after'.checks == c.form.checks;
    assert after' == c.form;
    MoveToFrontAtFront(c.history, id);
  }

  /**
   After "Random CXR", a run that shows a record shows one drawn from the
   rows matching the new filters, and the address carries that state.
   */
  lemma SubmitShowsMatchingRecord(q: QueryParams, table: seq<Record>, history: seq<string>,
                                  form: FormState, draw: nat)
    requires WellFormed(q) && ValidForm(form)
    requires RunDraw(q, table, form, true, draw)
    requires ApplyFilter(table, FormFilters(q, Vocabulary(table), form, true)) != []
    ensures var c := Run(q, table, history, form, true, draw);
      && c.screen.Shown?
      && c.screen.record == ApplyFilter(table, FormFilters(q, Vocabulary(table), form, true))[draw]
      && Matches(c.screen.record, c.filters)
      && Decode(c.query) == c.filters
  {
  }
}

=== FILE: wrappers.dfy ===
/** Failure-compatible wrappers shared by every module of the model. */
module Wrappers {

  /** An optional value: the filter state's keys that may be absent. */
  datatype Option<+T> = None | Some(value: T) {

    /** The wrapped value, or `default` when there is none. */
    function GetOr(default: T): T {
      match this
      case Some(v) => v
      case None => default
    }
  }

  /** Either a value or the error that stopped the computation. */
  datatype Result<+R, +E> = Success(value: R) | Failure(error: E)
}
